=== FILE: README.md ===
# Daily engagement job: a Dafny model

This project models the daily streak, XP and badge job of a social-feed
server (`server/src/config/cron.ts`). Every night at midnight the job runs
eleven steps over the user collection, in this order:

1. Reset the streak of every user whose last login is older than 24 hours.
2. Add one day to the streak of every user who logged in during the last 24 hours.
3. Give 5 XP on every third streak day below 15.
4. Give 10 XP on every third streak day from 15 on.
5. to 8. Append "One Week Streak", "One Month Streak", "Nice" or "One Year Streak" to users whose streak is exactly 7, 30, 69 or 365 days.
9. Remove every "Top Fan" entry from every user.
10. Compute a threshold. Sort the users by XP, highest first, and skip floor(count × 5%) of them. Take the XP of the next user, raised to at least 10. With no such user, the threshold is 10.
11. Append "Top Fan" to every user whose XP reaches the threshold.

Steps 1-9 and 11 are bulk `updateMany` calls. Step 10 is a `count`
followed by a sorted, skipped `findOne`. Each step reads what the earlier
steps wrote. The model makes each step a pure function on a snapshot
(`seq<User>`). An update step applies "if the filter matches, apply the
update" to every document on its own; the threshold step is a query over
the XP values (`MinXp` of `Xps`). `DailyJob(users, now)` is the composition
of all the steps. The clock reading `now` is a parameter, in milliseconds.

Modules:

- `Wrappers` (`wrappers.dfy`): `Option`, for a missing `lastLogin` and for a query that finds no user.
- `Badges` (`badges.dfy`): a badge array as the store keeps it. It is an ordered sequence that may hold duplicates. `Push` models `$push` and `Pull` models `$pull`.
- `Users` (`users.dfy`): the `User` document and `UpdateMany`, the store's bulk conditional update.
- `XpRank` (`xp_rank.dfy`): the "Top Fan" threshold. It contains a verified insertion sort, highest first, and a description of the threshold by rank that does not mention any sort. It also contains the proof that the two agree.
- `DailyCron` (`daily_cron.dfy`): the per-user rules (`StreakAfter`, `XpGain`, `MilestoneBadges`), the ten update stages, the threshold query they feed, and `DailyJob`.
- `DailyCronProperties` (`daily_cron_properties.dfy`): what one run does to each user, how the "Top Fan" recompute behaves, and what a second run on the same day does.

Mongo filter semantics that the model keeps:

- A user without `lastLogin` matches neither `$lt` nor `$gte`. Such a user's streak is never touched.
- `$pull` removes every copy of "Top Fan". `$push` appends even when the badge is already there.

`$push` does not check for duplicates, so a user who reaches 7 days in two
separate streaks holds "One Week Streak" twice; the model keeps both copies.

## Model

| member | source | states |
|---|---|---|
| Badges.Push | server/src/config/cron.ts:69-71 | `$push` appends one copy at the end. Earlier entries keep their places. The pushed badge's count rises by one and no other count changes. |
| Badges.Pull | server/src/config/cron.ts:117-119 | `$pull` removes every copy of the badge. Each other badge keeps its count. The result is a subsequence of the input, so the survivors keep their relative order. |
| Badges.PullAbsent | server/src/config/cron.ts:112-121 | Pulling a badge the array does not hold leaves the array unchanged. So filtering on `badges: "Top Fan"` before pulling makes no difference. |
| Badges.PullPushPull | server/src/config/cron.ts:111-140 | Pulling twice gives the same as pulling once. Pushing a badge and then pulling it restores the pulled array. |
| XpRank.InsertDesc | server/src/config/cron.ts:126-128 | Inserting into a descending sequence keeps it descending. The multiset gains exactly the inserted value. |
| XpRank.SortDesc | server/src/config/cron.ts:126-128 | The insertion sort returns a descending permutation of the XP values, with the same multiset. |
| XpRank.CountGeSort | server/src/config/cron.ts:126-128 | Sorting does not change how many users reach any XP bar. |
| XpRank.SortedValueIsRank | server/src/config/cron.ts:126-128 | After sorting, the value at index k is the rank-k value of the unsorted XP values: at most k users have more XP and more than k users have at least that much. |
| XpRank.RankValueUnique | server/src/config/cron.ts:126-128 | Only one value satisfies the rank-k description. The rank description therefore fixes the threshold on its own. |
| XpRank.TopFanRank | server/src/config/cron.ts:124-128 | The number of users skipped is floor(count/20). It is smaller than the count whenever there are users. |
| XpRank.FifthPercentileXp | server/src/config/cron.ts:124-128 | The skipped-and-sorted lookup finds a user exactly when the collection is non-empty. The XP it finds is the rank-floor(count×5/100) value. |
| XpRank.MinXp | server/src/config/cron.ts:129 | The threshold is always at least 10 and is 10 for an empty collection. Otherwise it is the rank value, raised to 10 when lower. |
| XpRank.TopFanShare | server/src/config/cron.ts:123-140 | At most floor(count×5/100) users have more XP than the threshold. More than that many users reach it whenever the threshold is above 10, or whenever more than that many users have at least 10 XP. |
| DailyCron.ResetStreaks | server/src/config/cron.ts:14-24 | A user whose last login is older than `now - 24h` ends with streak 0. Every other user and every other field is unchanged. |
| DailyCron.IncrementStreaks | server/src/config/cron.ts:27-36 | A user who logged in at or after `now - 24h` gains one streak day. No other field changes. |
| DailyCron.AwardLowTierXp | server/src/config/cron.ts:40-49 | A user with a streak below 15 gains `XpGain` of the streak (5 on a positive multiple of 3). No other field changes. |
| DailyCron.AwardHighTierXp | server/src/config/cron.ts:52-61 | A user with a streak of 15 or more gains `XpGain` of the streak (10 on a multiple of 3). No other field changes. |
| DailyCron.AwardMilestone | server/src/config/cron.ts:64-109 | A user whose streak equals the milestone gets the badge appended. The old badges stay as a prefix. Nobody else changes. |
| DailyCron.RemoveTopFan | server/src/config/cron.ts:112-121 | Afterwards nobody holds "Top Fan". Each badge array is the pulled array. No XP or other field changes. |
| DailyCron.AwardTopFan | server/src/config/cron.ts:131-140 | Users at or above the threshold get one "Top Fan" entry appended at the end of their badge array. Everyone else's array is unchanged, and no XP changes. |
| DailyCron.UpdateStreaks | server/src/config/cron.ts:10-36 | Reset followed by increment applies the one-user rule `StreakAfter` to everybody. A stale login gives 0, never 1. |
| DailyCron.AwardXp | server/src/config/cron.ts:38-61 | The two XP tiers together add `XpGain` of the streak, with at most one tier applying. |
| DailyCron.AwardMilestones | server/src/config/cron.ts:63-109 | The four milestone steps together append `MilestoneBadges` of the streak: at most one badge. |
| DailyCron.TopFanRecompute | server/src/config/cron.ts:111-140 | Every user ends with the pulled badges, followed by one "Top Fan" exactly when their XP reaches the threshold computed from everybody's XP. No XP changes. |
| DailyCron.DailyJob | server/src/config/cron.ts:10-140 | The job keeps the number of users and every user's `lastLogin` at the same index. The per-user outcome at each index is stated by `DailyCronProperties.DailyJobUser`. |
| DailyCronProperties.DailyJobUser | server/src/config/cron.ts:10-140 | Per user: the streak follows `StreakAfter`. XP grows by `XpGain` of the new streak. The final badge array is the old array without "Top Fan", in the old order, then the milestone badge, then one "Top Fan" at the end exactly when the final XP reaches the final threshold. |
| DailyCronProperties.StreakIncrementsAfterLogin | server/src/config/cron.ts:10-36 | A login in the last 24 hours leaves the streak exactly one higher. |
| DailyCronProperties.StreakResetsAfterAbsence | server/src/config/cron.ts:10-36 | An older login leaves the streak at 0. It is not reset and then incremented in the same run. |
| DailyCronProperties.StreakKeptWithoutLogin | server/src/config/cron.ts:14-36 | A user with no `lastLogin` keeps the same streak. |
| DailyCronProperties.XpTiers | server/src/config/cron.ts:38-61 | With `s` the streak after the increment: +5 when `s` is a multiple of 3 with 0 < s < 15, +10 when it is a multiple of 3 with s ≥ 15, and +0 otherwise. XP never decreases. |
| DailyCronProperties.MilestoneBadgesOnce | server/src/config/cron.ts:63-109 | Each milestone badge count rises by one exactly when the new streak equals that milestone. Copies from earlier streaks remain. At most one badge is added other than "Top Fan". |
| DailyCronProperties.TopFanIffThreshold | server/src/config/cron.ts:111-140 | A user holds "Top Fan" if and only if their final XP reaches the threshold. They hold it at most once, and every holder has at least 10 XP. |
| DailyCronProperties.HoldersReachThreshold | server/src/config/cron.ts:131-140 | When holding the badge means reaching `m` XP, the number of holders is the number of users with at least `m` XP. |
| DailyCronProperties.TopFanHolderShare | server/src/config/cron.ts:123-140 | Holders are the users at or above the threshold. At most floor(count×5/100) users have more XP than it. When the threshold is above 10, holders number more than floor(count×5/100), because ties at the boundary all get the badge. |
| DailyCronProperties.TopFanRecomputeIdempotent | server/src/config/cron.ts:111-140 | Running revoke, threshold and award a second time gives the same collection as running them once. |
| DailyCronProperties.SameDayRerunCountsTwice | server/src/config/cron.ts:26-36 | The job is not idempotent. Two runs at the same clock reading give a recently logged-in user two more streak days. |

## Left out

- Scheduling (the `node-cron` registration) and the console logging with its timing. These are I/O. The clock is the parameter `now`.
- The store driver and `async` behaviour. Each `updateMany` is one atomic map over a snapshot. A failure partway through a run is not modelled.
- Writes by the rest of the application between the awaited steps. The model works on one snapshot, so a login that lands between the reset (cron.ts lines 14-24) and the increment (lines 27-36) is not modelled; in the running system such a user is reset and then incremented, ending with streak 1. `DailyCron.UpdateStreaks` and `DailyCronProperties.StreakResetsAfterAbsence` rule out that outcome only because of the snapshot.
- Floating point. `Math.floor(count * 0.05)` is modelled as the integer `count * 5 / 100`. The two agree for every collection size short of astronomically large ones. The double nearest 0.05 is slightly above 0.05, so a multiple of 20 never rounds down.
- Date objects. Timestamps are integer milliseconds. A `lastLogin` that is missing or null is `None`, and neither `$lt` nor `$gte` matches it.
- Which of several tied users `findOne` returns after the sort. They all have the same XP, so only the XP value is modelled.
- The hourly hot-score job. Its implementation (`config/cron-hourly`) is not part of this model.
- The client components: the comment menu, reaction bar, post, thread and thread collapser. They are user-interface rendering and state glue.

=== FILE: badges.dfy ===
/**
 * A user's badges as the document store keeps them: an ordered array of
 * names in which the same name may occur more than once. `$push` appends
 * one entry; `$pull` removes every entry equal to the given name.
 */
module Badges {

  type Badge = string

  const TopFan: Badge := "Top Fan"
  const OneWeekStreak: Badge := "One Week Streak"
  const OneMonthStreak: Badge := "One Month Streak"
  const Nice: Badge := "Nice"
  const OneYearStreak: Badge := "One Year Streak"

  /** Number of entries of `bs` equal to `b`. */
  function Count(bs: seq<Badge>, b: Badge): nat
  {
    if |bs| == 0 then 0
    else (if bs[0] == b then 1 else 0) + Count(bs[1..], b)
  }

  /** `a` can be obtained from `bs` by deleting entries, keeping the order of the rest. */
  predicate IsSubsequence(a: seq<Badge>, bs: seq<Badge>)
    decreases |bs|
  {
    && |a| <= |bs|
    && (|a| == 0
        || (a[0] == bs[0] && IsSubsequence(a[1..], bs[1..]))
        || IsSubsequence(a, bs[1..]))
  }

  lemma {:induction false} CountConcat(a: seq<Badge>, c: seq<Badge>, b: Badge)
    ensures Count(a + c, b) == Count(a, b) + Count(c, b)
    decreases |a|
  {
    if |a| > 0 {
      assert (a + c)[1..] == a[1..] + c;
      CountConcat(a[1..], c, b);
    } else {
      assert a + c == c;
    }
  }

  lemma {:induction false} CountZeroNotIn(bs: seq<Badge>, b: Badge)
    ensures Count(bs, b) == 0 <==> b !in bs
    decreases |bs|
  {
    if |bs| > 0 {
      CountZeroNotIn(bs[1..], b);
      assert bs == [bs[0]] + bs[1..];
    }
  }

  /** `$push`: one more copy of `b` at the end, every earlier entry in place. */
  function Push(bs: seq<Badge>, b: Badge): (r: seq<Badge>)
    ensures |r| == |bs| + 1 && r[..|bs|] == bs && r[|bs|] == b
    ensures Count(r, b) == Count(bs, b) + 1
    ensures forall x :: x != b ==> Count(r, x) == Count(bs, x)
  {
    var r := bs + [b];
    assert forall x :: Count(r, x) == Count(bs, x) + (if x == b then 1 else 0) by {
      forall x ensures Count(r, x) == Count(bs, x) + (if x == b then 1 else 0) {
        CountConcat(bs, [b], x);
        assert [b][1..] == [];
      }
    }
    r
  }

  /**
   * `$pull`: every entry equal to `b` disappears; every other entry keeps
   * its multiplicity and its position relative to the other survivors.
   */
  function Pull(bs: seq<Badge>, b: Badge): (r: seq<Badge>)
    ensures b !in r
    ensures forall x :: x != b ==> Count(r, x) == Count(bs, x)
    ensures |r| == |bs| - Count(bs, b)
    ensures IsSubsequence(r, bs)
    decreases |bs|
  {
    if |bs| == 0 then []
    else if bs[0] == b then
      var r := Pull(bs[1..], b);
      assert IsSubsequence(r, bs);
      r
    else
      var rest := Pull(bs[1..], b);
      var r := [bs[0]] + rest;
      assert r[1..] == rest;
      assert IsSubsequence(r, bs);
      r
  }

  /** When `b` is absent, `$pull` leaves the array as it was. */
  lemma {:induction false} PullAbsent(bs: seq<Badge>, b: Badge)
    requires b !in bs
    ensures Pull(bs, b) == bs
    decreases |bs|
  {
    if |bs| > 0 {
      PullAbsent(bs[1..], b);
      assert bs == [bs[0]] + bs[1..];
    }
  }

  lemma {:induction false} PullConcat(a: seq<Badge>, c: seq<Badge>, b: Badge)
    ensures Pull(a + c, b) == Pull(a, b) + Pull(c, b)
    decreases |a|
  {
    if |a| > 0 {
      assert (a + c)[0] == a[0];
      assert (a + c)[1..] == a[1..] + c;
      PullConcat(a[1..], c, b);
    } else {
      assert a + c == c;
    }
  }

  /** Pulling twice is pulling once, and pushing `b` then pulling it undoes the push. */
  lemma {:induction false} PullPushPull(bs: seq<Badge>, b: Badge)
    ensures Pull(Pull(bs, b), b) == Pull(bs, b)
    ensures Pull(Push(Pull(bs, b), b), b) == Pull(bs, b)
  {
    var p := Pull(bs, b);
    PullAbsent(p, b);
    PullConcat(p, [b], b);
    assert Pull([b], b) == [];
    assert p + [] == p;
  }
}

=== FILE: daily_cron.dfy ===
/**
 * The daily engagement job: ten bulk updates and one threshold query, run
 * in order over the user collection, each reading what the previous one
 * wrote. The job is a pure
 * function of the collection snapshot and the clock reading `now`.
 */
module DailyCron {
  import opened Wrappers
  import opened Badges
  import opened XpRank
  import opened Users

  /** 24 hours in milliseconds: "yesterday" is `now - DayMs`. */
  const DayMs: int := 24 * 60 * 60 * 1000

  /** The user logged in, and did so before `yesterday` (the store's `$lt`). */
  predicate LoggedInBefore(u: User, yesterday: Millis)
  {
    u.lastLogin.Some? && u.lastLogin.value < yesterday
  }

  /** The user logged in at or after `yesterday` (the store's `$gte`). */
  predicate LoggedInSince(u: User, yesterday: Millis)
  {
    u.lastLogin.Some? && u.lastLogin.value >= yesterday
  }

  // ---------------------------------------------------------------------
  // The per-user rules the job is meant to implement, stated on one user.
  // ---------------------------------------------------------------------

  /**
   * The streak after a run at `now`: one more after a login in the last
   * day, zero after an older login, unchanged for a user who never logged in.
   */
  function StreakAfter(u: User, now: Millis): nat
  {
    match u.lastLogin
    case None => u.streakDays
    case Some(t) => if t >= now - DayMs then u.streakDays + 1 else 0
  }

  /** XP earned for reaching `streak`: 5 on every third day below 15, 10 from 15 on. */
  function XpGain(streak: nat): nat
  {
    if streak == 0 || streak % 3 != 0 then 0
    else if streak < 15 then 5
    else 10
  }

  /** Badges earned for reaching exactly `streak` days. */
  function MilestoneBadges(streak: nat): seq<Badge>
  {
    if streak == 7 then [OneWeekStreak]
    else if streak == 30 then [OneMonthStreak]
    else if streak == 69 then [Nice]
    else if streak == 365 then [OneYearStreak]
    else []
  }

  // ---------------------------------------------------------------------
  // The update stages, one per bulk update; the threshold query is `MinXp`.
  // ---------------------------------------------------------------------

  /** Stage 1: users whose last login is older than `yesterday` lose their streak. */
  function ResetStreaks(users: seq<User>, yesterday: Millis): (r: seq<User>)
    ensures |r| == |users|
    ensures forall i :: 0 <= i < |users| ==>
              r[i] == users[i].(streakDays := if LoggedInBefore(users[i], yesterday) then 0 else users[i].streakDays)
  {
    UpdateMany(users, (u: User) => LoggedInBefore(u, yesterday) && u.streakDays > 0, (u: User) => u.(streakDays := 0))
  }

  /** Stage 2: users who logged in since `yesterday` extend their streak by one day. */
  function IncrementStreaks(users: seq<User>, yesterday: Millis): (r: seq<User>)
    ensures |r| == |users|
    ensures forall i :: 0 <= i < |users| ==>
              && r[i].streakDays == users[i].streakDays + (if LoggedInSince(users[i], yesterday) then 1 else 0)
              && r[i] == users[i].(streakDays := r[i].streakDays)
  {
    UpdateMany(users, (u: User) => LoggedInSince(u, yesterday), (u: User) => u.(streakDays := u.streakDays + 1))
  }

  /** Stage 3: 5 xp on every third streak day below 15. */
  function AwardLowTierXp(users: seq<User>): (r: seq<User>)
    ensures |r| == |users|
    ensures forall i :: 0 <= i < |users| ==>
              && r[i].xp == users[i].xp + (if users[i].streakDays < 15 then XpGain(users[i].streakDays) else 0)
              && r[i] == users[i].(xp := r[i].xp)
  {
    UpdateMany(users, (u: User) => u.streakDays % 3 == 0 && 0 < u.streakDays < 15, (u: User) => u.(xp := u.xp + 5))
  }

  /** Stage 4: 10 xp on every third streak day from 15 on. */
  function AwardHighTierXp(users: seq<User>): (r: seq<User>)
    ensures |r| == |users|
    ensures forall i :: 0 <= i < |users| ==>
              && r[i].xp == users[i].xp + (if users[i].streakDays >= 15 then XpGain(users[i].streakDays) else 0)
              && r[i] == users[i].(xp := r[i].xp)
  {
    UpdateMany(users, (u: User) => u.streakDays % 3 == 0 && u.streakDays >= 15, (u: User) => u.(xp := u.xp + 10))
  }

  /** Stages 5 to 8: users whose streak is exactly `days` get one more copy of `badge`. */
  function AwardMilestone(users: seq<User>, days: nat, badge: Badge): (r: seq<User>)
    ensures |r| == |users|
    ensures forall i :: 0 <= i < |users| ==>
              && users[i].badges <= r[i].badges
              && |r[i].badges| == |users[i].badges| + (if users[i].streakDays == days then 1 else 0)
              && (users[i].streakDays == days ==> r[i].badges[|users[i].badges|] == badge)
              && r[i] == users[i].(badges := r[i].badges)
  {
    UpdateMany(users, (u: User) => u.streakDays == days, (u: User) => u.(badges := Push(u.badges, badge)))
  }

  /** Stage 9: every "Top Fan" entry disappears; nothing else moves. */
  function RemoveTopFan(users: seq<User>): (r: seq<User>)
    ensures |r| == |users|
    ensures Xps(r) == Xps(users)
    ensures forall i :: 0 <= i < |users| ==>
              && TopFan !in r[i].badges
              && r[i].badges == Pull(users[i].badges, TopFan)
              && r[i] == users[i].(badges := r[i].badges)
  {
    var r := UpdateMany(users, (u: User) => TopFan in u.badges, (u: User) => u.(badges := Pull(u.badges, TopFan)));
    assert forall i :: 0 <= i < |users| && TopFan !in users[i].badges ==>
             Pull(users[i].badges, TopFan) == users[i].badges by {
      forall i | 0 <= i < |users| && TopFan !in users[i].badges
        ensures Pull(users[i].badges, TopFan) == users[i].badges
      {
        PullAbsent(users[i].badges, TopFan);
      }
    }
    r
  }

  /** Stage 11: every user with at least `minXp` xp gets one more "Top Fan" entry. */
  function AwardTopFan(users: seq<User>, minXp: nat): (r: seq<User>)
    ensures |r| == |users|
    ensures Xps(r) == Xps(users)
    ensures forall i :: 0 <= i < |users| ==>
              && Count(r[i].badges, TopFan) == Count(users[i].badges, TopFan) + (if users[i].xp >= minXp then 1 else 0)
              && Pull(r[i].badges, TopFan) == Pull(users[i].badges, TopFan)
              && r[i].badges == users[i].badges + (if users[i].xp >= minXp then [TopFan] else [])
              && r[i] == users[i].(badges := r[i].badges)
  {
    var r := UpdateMany(users, (u: User) => u.xp >= minXp, (u: User) => u.(badges := Push(u.badges, TopFan)));
    assert forall i :: 0 <= i < |users| ==> Pull(r[i].badges, TopFan) == Pull(users[i].badges, TopFan) by {
      forall i | 0 <= i < |users|
        ensures Pull(r[i].badges, TopFan) == Pull(users[i].badges, TopFan)
      {
        if users[i].xp >= minXp {
          PullConcat(users[i].badges, [TopFan], TopFan);
          assert Pull([TopFan], TopFan) == [];
          assert Pull(users[i].badges, TopFan) + [] == Pull(users[i].badges, TopFan);
        }
      }
    }
    r
  }

  // ---------------------------------------------------------------------
  // The stages grouped by purpose, each group checked against its rule.
  // ---------------------------------------------------------------------

  /** Stages 1 and 2 together apply `StreakAfter` to every user and nothing else. */
  function UpdateStreaks(users: seq<User>, now: Millis): (r: seq<User>)
    ensures |r| == |users|
    ensures forall i :: 0 <= i < |users| ==> r[i] == users[i].(streakDays := StreakAfter(users[i], now))
  {
    var yesterday := now - DayMs;
    IncrementStreaks(ResetStreaks(users, yesterday), yesterday)
  }

  /** Stages 3 and 4 together add `XpGain` of the current streak and nothing else. */
  function AwardXp(users: seq<User>): (r: seq<User>)
    ensures |r| == |users|
    ensures forall i :: 0 <= i < |users| ==> r[i] == users[i].(xp := users[i].xp + XpGain(users[i].streakDays))
  {
    AwardHighTierXp(AwardLowTierXp(users))
  }

  /** Stages 5 to 8 together append `MilestoneBadges` of the current streak and nothing else. */
  function AwardMilestones(users: seq<User>): (r: seq<User>)
    ensures |r| == |users|
    ensures forall i :: 0 <= i < |users| ==>
              r[i] == users[i].(badges := users[i].badges + MilestoneBadges(users[i].streakDays))
  {
    var s5 := AwardMilestone(users, 7, OneWeekStreak);
    var s6 := AwardMilestone(s5, 30, OneMonthStreak);
    var s7 := AwardMilestone(s6, 69, Nice);
    AwardMilestone(s7, 365, OneYearStreak)
  }

  /**
   * Stages 9 to 11: revoke "Top Fan" everywhere, compute the threshold from
   * the xp of the whole collection, and award "Top Fan" once to every user
   * who reaches it.
   */
  function TopFanRecompute(users: seq<User>): (r: seq<User>)
    ensures |r| == |users|
    ensures Xps(r) == Xps(users)
    ensures forall i :: 0 <= i < |users| ==>
              && Count(r[i].badges, TopFan) == (if r[i].xp >= MinXp(Xps(r)) then 1 else 0)
              && Pull(r[i].badges, TopFan) == Pull(users[i].badges, TopFan)
              && r[i].badges == Pull(users[i].badges, TopFan) + (if r[i].xp >= MinXp(Xps(r)) then [TopFan] else [])
              && r[i] == users[i].(badges := r[i].badges)
  {
    var pulled := RemoveTopFan(users);
    var r := AwardTopFan(pulled, MinXp(Xps(pulled)));
    assert forall i :: 0 <= i < |users| ==> Count(pulled[i].badges, TopFan) == 0 by {
      forall i | 0 <= i < |users| ensures Count(pulled[i].badges, TopFan) == 0 {
        CountZeroNotIn(pulled[i].badges, TopFan);
      }
    }
    assert forall i :: 0 <= i < |users| ==> Pull(pulled[i].badges, TopFan) == Pull(users[i].badges, TopFan) by {
      forall i | 0 <= i < |users|
        ensures Pull(pulled[i].badges, TopFan) == Pull(users[i].badges, TopFan)
      {
        PullPushPull(users[i].badges, TopFan);
      }
    }
    r
  }

  /** The whole daily run at clock reading `now`. */
  function DailyJob(users: seq<User>, now: Millis): (r: seq<User>)
    ensures |r| == |users|
    ensures forall i :: 0 <= i < |users| ==> r[i].lastLogin == users[i].lastLogin
  {
    TopFanRecompute(AwardMilestones(AwardXp(UpdateStreaks(users, now))))
  }
}

=== FILE: daily_cron_properties.dfy ===
/**
 * What one daily run does to each user, stated against the per-user rules,
 * and how runs compose.
 */
module DailyCronProperties {
  import opened Wrappers
  import opened Badges
  import opened XpRank
  import opened Users
  import opened DailyCron

  /**
   * The outcome for user `i`: the streak follows `StreakAfter`, xp grows by
   * `XpGain` of the new streak, the non-"Top Fan" badges are the old ones in
   * the old order followed by the milestone badge of the new streak, and
   * one "Top Fan" comes last exactly when the final xp reaches the threshold
   * computed from everybody's final xp.
   */
  lemma {:induction false} DailyJobUser(users: seq<User>, now: Millis, i: nat)
    requires i < |users|
    ensures var r := DailyJob(users, now);
            var s := StreakAfter(users[i], now);
            && r[i].lastLogin == users[i].lastLogin
            && r[i].streakDays == s
            && r[i].xp == users[i].xp + XpGain(s)
            && Pull(r[i].badges, TopFan) == Pull(users[i].badges, TopFan) + MilestoneBadges(s)
            && Count(r[i].badges, TopFan) == (if r[i].xp >= MinXp(Xps(r)) then 1 else 0)
            && r[i].badges == Pull(users[i].badges, TopFan) + MilestoneBadges(s)
                              + (if r[i].xp >= MinXp(Xps(r)) then [TopFan] else [])
  {
    var s := StreakAfter(users[i], now);
    var a := UpdateStreaks(users, now);
    var b := AwardXp(a);
    var c := AwardMilestones(b);
    assert c[i].badges == users[i].badges + MilestoneBadges(s);
    PullConcat(users[i].badges, MilestoneBadges(s), TopFan);
    PullAbsent(MilestoneBadges(s), TopFan);
  }

  /** A login within the last 24 hours extends the streak by exactly one day. */
  lemma {:induction false} StreakIncrementsAfterLogin(users: seq<User>, now: Millis, i: nat)
    requires i < |users| && LoggedInSince(users[i], now - DayMs)
    ensures DailyJob(users, now)[i].streakDays == users[i].streakDays + 1
  {
  }

  /** An older login ends the streak, and the same run does not start a new one. */
  lemma {:induction false} StreakResetsAfterAbsence(users: seq<User>, now: Millis, i: nat)
    requires i < |users| && LoggedInBefore(users[i], now - DayMs)
    ensures DailyJob(users, now)[i].streakDays == 0
  {
  }

  /** A user without any recorded login matches neither filter. */
  lemma {:induction false} StreakKeptWithoutLogin(users: seq<User>, now: Millis, i: nat)
    requires i < |users| && users[i].lastLogin.None?
    ensures DailyJob(users, now)[i].streakDays == users[i].streakDays
  {
  }

  /**
   * XP is awarded on the streak after this run's increment: +5 on a multiple
   * of 3 below 15, +10 on a multiple of 3 from 15 on, nothing otherwise. At
   * most one tier applies and xp never decreases.
   */
  lemma {:induction false} XpTiers(users: seq<User>, now: Millis, i: nat)
    requires i < |users|
    ensures var r := DailyJob(users, now)[i];
            var s := r.streakDays;
            && (s % 3 == 0 && 0 < s < 15 ==> r.xp == users[i].xp + 5)
            && (s % 3 == 0 && s >= 15 ==> r.xp == users[i].xp + 10)
            && (s % 3 != 0 || s == 0 ==> r.xp == users[i].xp)
            && r.xp >= users[i].xp
  {
  }

  /** Badges other than "Top Fan" are counted the same before and after pulling it. */
  lemma {:induction false} CountOutsideTopFan(before: seq<Badge>, after: seq<Badge>, extra: seq<Badge>, b: Badge)
    requires b != TopFan && Pull(after, TopFan) == Pull(before, TopFan) + extra
    ensures Count(after, b) == Count(before, b) + Count(extra, b)
  {
    CountConcat(Pull(before, TopFan), extra, b);
  }

  /** Appending `MilestoneBadges(s)` past the "Top Fan" entries adds one of at most one milestone badge. */
  lemma {:induction false} MilestoneCounts(before: seq<Badge>, after: seq<Badge>, s: nat)
    requires Pull(after, TopFan) == Pull(before, TopFan) + MilestoneBadges(s)
    ensures Count(after, OneWeekStreak) == Count(before, OneWeekStreak) + (if s == 7 then 1 else 0)
    ensures Count(after, OneMonthStreak) == Count(before, OneMonthStreak) + (if s == 30 then 1 else 0)
    ensures Count(after, Nice) == Count(before, Nice) + (if s == 69 then 1 else 0)
    ensures Count(after, OneYearStreak) == Count(before, OneYearStreak) + (if s == 365 then 1 else 0)
    ensures |Pull(after, TopFan)| <= |Pull(before, TopFan)| + 1
  {
    var m := MilestoneBadges(s);
    CountOutsideTopFan(before, after, m, OneWeekStreak);
    CountOutsideTopFan(before, after, m, OneMonthStreak);
    CountOutsideTopFan(before, after, m, Nice);
    CountOutsideTopFan(before, after, m, OneYearStreak);
  }

  /**
   * A milestone badge is appended once when the new streak is exactly 7,
   * 30, 69 or 365 days; copies from earlier streaks stay, so the same badge
   * can be held more than once. At most one milestone badge is added per run.
   */
  lemma {:induction false} MilestoneBadgesOnce(users: seq<User>, now: Millis, i: nat)
    requires i < |users|
    ensures var r := DailyJob(users, now)[i];
            var s := r.streakDays;
            && Count(r.badges, OneWeekStreak) == Count(users[i].badges, OneWeekStreak) + (if s == 7 then 1 else 0)
            && Count(r.badges, OneMonthStreak) == Count(users[i].badges, OneMonthStreak) + (if s == 30 then 1 else 0)
            && Count(r.badges, Nice) == Count(users[i].badges, Nice) + (if s == 69 then 1 else 0)
            && Count(r.badges, OneYearStreak) == Count(users[i].badges, OneYearStreak) + (if s == 365 then 1 else 0)
            && |Pull(r.badges, TopFan)| <= |Pull(users[i].badges, TopFan)| + 1
  {
    DailyJobUser(users, now, i);
    var r := DailyJob(users, now)[i];
    MilestoneCounts(users[i].badges, r.badges, r.streakDays);
  }

  /**
   * After the run "Top Fan" is held, exactly once, by precisely the users
   * whose final xp reaches the threshold; so every holder has at least 10 xp.
   */
  lemma {:induction false} TopFanIffThreshold(users: seq<User>, now: Millis, i: nat)
    requires i < |users|
    ensures var r := DailyJob(users, now);
            && (TopFan in r[i].badges <==> r[i].xp >= MinXp(Xps(r)))
            && Count(r[i].badges, TopFan) <= 1
            && (TopFan in r[i].badges ==> r[i].xp >= MinTopFanXp)
  {
  }

  /** Number of users holding "Top Fan". */
  function HolderCount(users: seq<User>): nat
  {
    if |users| == 0 then 0
    else (if TopFan in users[0].badges then 1 else 0) + HolderCount(users[1..])
  }

  /** When holding the badge means reaching `m` xp, the holders are the users at or above `m`. */
  lemma {:induction false} HoldersReachThreshold(users: seq<User>, m: int)
    requires forall i :: 0 <= i < |users| ==> (TopFan in users[i].badges <==> users[i].xp >= m)
    ensures HolderCount(users) == CountGe(Xps(users), m)
    decreases |users|
  {
    if |users| > 0 {
      assert Xps(users)[1..] == Xps(users[1..]);
      HoldersReachThreshold(users[1..], m);
    }
  }

  /**
   * The share of "Top Fan" holders: at most floor(count * 0.05) of them have
   * more xp than the threshold, and when the threshold is above 10, more
   * than floor(count * 0.05) users hold the badge (all users tied at the
   * boundary get it).
   */
  lemma {:induction false} TopFanHolderShare(users: seq<User>, now: Millis)
    requires |users| > 0
    ensures var r := DailyJob(users, now);
            var m := MinXp(Xps(r));
            && HolderCount(r) == CountGe(Xps(r), m)
            && CountGe(Xps(r), m + 1) <= TopFanRank(|users|)
            && (m > MinTopFanXp ==> HolderCount(r) > TopFanRank(|users|))
  {
    var r := DailyJob(users, now);
    forall i | 0 <= i < |r|
      ensures TopFan in r[i].badges <==> r[i].xp >= MinXp(Xps(r))
    {
      TopFanIffThreshold(users, now, i);
    }
    HolderShare(r, MinXp(Xps(r)));
  }

  lemma {:induction false} HolderShare(r: seq<User>, m: nat)
    requires |r| > 0 && m == MinXp(Xps(r))
    requires forall i :: 0 <= i < |r| ==> (TopFan in r[i].badges <==> r[i].xp >= m)
    ensures HolderCount(r) == CountGe(Xps(r), m)
    ensures CountGe(Xps(r), m + 1) <= TopFanRank(|r|)
    ensures m > MinTopFanXp ==> HolderCount(r) > TopFanRank(|r|)
  {
    HoldersReachThreshold(r, m);
    TopFanShare(Xps(r), m);
  }

  /**
   * Revoking and re-awarding "Top Fan" a second time changes nothing: the
   * recompute depends only on the xp values and the non-"Top Fan" badges,
   * and it leaves both as they were.
   */
  lemma {:induction false} TopFanRecomputeIdempotent(users: seq<User>)
    ensures TopFanRecompute(TopFanRecompute(users)) == TopFanRecompute(users)
  {
  }

  /**
   * The job assumes it runs once a day: run twice at the same clock reading,
   * a user who logged in within the last 24 hours gains two streak days.
   */
  lemma {:induction false} SameDayRerunCountsTwice(users: seq<User>, now: Millis, i: nat)
    requires i < |users| && LoggedInSince(users[i], now - DayMs)
    ensures DailyJob(DailyJob(users, now), now)[i].streakDays == users[i].streakDays + 2
  {
  }
}

=== FILE: users.dfy ===
/**
 * The user documents the daily job reads and writes, and the store's bulk
 * update: every document that matches a filter receives the same update,
 * each independently of the others.
 */
module Users {
  import opened Wrappers
  import opened Badges

  /** A timestamp in milliseconds since the epoch, as `Date.getTime()` returns it. */
  type Millis = int

  /**
   * The fields of a user document the job touches. A user who never logged
   * in has no `lastLogin`.
   */
  datatype User = User(lastLogin: Option<Millis>, streakDays: nat, xp: nat, badges: seq<Badge>)

  /**
   * `updateMany(filter, update)` over a snapshot of the collection: every
   * matching document is updated, the others are left alone, and the
   * collection keeps its size and order.
   */
  function UpdateMany(users: seq<User>, matches: User -> bool, update: User -> User): (r: seq<User>)
    ensures |r| == |users|
    ensures forall i :: 0 <= i < |users| ==>
              r[i] == if matches(users[i]) then update(users[i]) else users[i]
  {
    seq(|users|, i requires 0 <= i < |users| =>
      if matches(users[i]) then update(users[i]) else users[i])
  }

  /** The xp field of every user, in collection order. */
  function Xps(users: seq<User>): (r: seq<nat>)
    ensures |r| == |users|
    ensures forall i :: 0 <= i < |users| ==> r[i] == users[i].xp
  {
    seq(|users|, i requires 0 <= i < |users| => users[i].xp)
  }
}

=== FILE: wrappers.dfy ===
/** Optional values: a missing document field, or a query that found nothing. */
module Wrappers {

  datatype Option<+T> = None | Some(value: T)
}

=== FILE: xp_rank.dfy ===
/**
 * The "Top Fan" threshold: the xp of the user found by sorting every user
 * by xp, highest first, and skipping floor(count * 5 / 100) of them, with
 * a floor of 10 xp. The sort is an insertion sort over the xp values; the
 * value it yields is also characterised by rank alone (how many users have
 * at least, or more than, that much xp), with no reference to any sort.
 */
module XpRank {
  import opened Wrappers

  /** Smallest xp that can ever earn "Top Fan". */
  const MinTopFanXp: nat := 10

  predicate SortedDesc(s: seq<nat>)
  {
    forall i, j :: 0 <= i < j < |s| ==> s[i] >= s[j]
  }

  /** Insert `x` into the descending sequence `s` before the first smaller entry. */
  function InsertDesc(x: nat, s: seq<nat>): (r: seq<nat>)
    requires SortedDesc(s)
    ensures SortedDesc(r)
    ensures multiset(r) == multiset(s) + multiset{x}
    ensures |r| == |s| + 1
    ensures r[0] == x || (|s| > 0 && r[0] == s[0])
    decreases |s|
  {
    if |s| == 0 || x >= s[0] then [x] + s
    else
      var rest := InsertDesc(x, s[1..]);
      assert s == [s[0]] + s[1..];
      [s[0]] + rest
  }

  /** Insertion sort, highest xp first. */
  function SortDesc(s: seq<nat>): (r: seq<nat>)
    ensures SortedDesc(r)
    ensures multiset(r) == multiset(s)
    ensures |r| == |s|
    decreases |s|
  {
    if |s| == 0 then []
    else
      assert s == [s[0]] + s[1..];
      InsertDesc(s[0], SortDesc(s[1..]))
  }

  /** How many entries of `xs` are at least `v`. */
  function CountGe(xs: seq<nat>, v: int): nat
  {
    if |xs| == 0 then 0
    else (if xs[0] >= v then 1 else 0) + CountGe(xs[1..], v)
  }

  /**
   * `v` is the value at 0-based rank `k` from the top: at most `k` entries
   * exceed it and more than `k` entries reach it.
   */
  predicate IsRankValue(xs: seq<nat>, k: nat, v: int)
  {
    CountGe(xs, v + 1) <= k < CountGe(xs, v)
  }

  lemma {:induction false} CountGeBound(xs: seq<nat>, v: int)
    ensures CountGe(xs, v) <= |xs|
    decreases |xs|
  {
    if |xs| > 0 {
      CountGeBound(xs[1..], v);
    }
  }

  /** Raising the bar never admits more entries. */
  lemma {:induction false} CountGeAntitone(xs: seq<nat>, v: int, w: int)
    requires v <= w
    ensures CountGe(xs, w) <= CountGe(xs, v)
    decreases |xs|
  {
    if |xs| > 0 {
      CountGeAntitone(xs[1..], v, w);
    }
  }

  lemma {:induction false} CountGeNone(xs: seq<nat>, v: int)
    requires forall j :: 0 <= j < |xs| ==> xs[j] < v
    ensures CountGe(xs, v) == 0
    decreases |xs|
  {
    if |xs| > 0 {
      CountGeNone(xs[1..], v);
    }
  }

  lemma {:induction false} CountGeInsert(x: nat, s: seq<nat>, v: int)
    requires SortedDesc(s)
    ensures CountGe(InsertDesc(x, s), v) == CountGe(s, v) + (if x >= v then 1 else 0)
    decreases |s|
  {
    if |s| == 0 || x >= s[0] {
      assert (([x] + s)[1..]) == s;
    } else {
      var rest := InsertDesc(x, s[1..]);
      assert ([s[0]] + rest)[1..] == rest;
      CountGeInsert(x, s[1..], v);
    }
  }

  /** Sorting does not change how many entries reach any bar. */
  lemma {:induction false} CountGeSort(s: seq<nat>, v: int)
    ensures CountGe(SortDesc(s), v) == CountGe(s, v)
    decreases |s|
  {
    if |s| > 0 {
      CountGeSort(s[1..], v);
      CountGeInsert(s[0], SortDesc(s[1..]), v);
    }
  }

  /** In a descending sequence, the entry at index `k` is the rank-`k` value. */
  lemma {:induction false} SortedRank(s: seq<nat>, k: nat)
    requires SortedDesc(s) && k < |s|
    ensures IsRankValue(s, k, s[k])
    decreases |s|
  {
    if k == 0 {
      CountGeNone(s[1..], s[0] + 1);
    } else {
      assert SortedDesc(s[1..]);
      SortedRank(s[1..], k - 1);
      assert s[1..][k - 1] == s[k];
    }
  }

  /** The entry at index `k` after sorting is the rank-`k` value of the unsorted input. */
  lemma {:induction false} SortedValueIsRank(xps: seq<nat>, k: nat)
    requires k < |xps|
    ensures IsRankValue(xps, k, SortDesc(xps)[k])
  {
    var sorted := SortDesc(xps);
    SortedRank(sorted, k);
    CountGeSort(xps, sorted[k]);
    CountGeSort(xps, sorted[k] + 1);
  }

  /** The rank-`k` value of a collection is unique. */
  lemma {:induction false} RankValueUnique(xs: seq<nat>, k: nat, v: int, w: int)
    requires IsRankValue(xs, k, v) && IsRankValue(xs, k, w)
    ensures v == w
  {
    if v < w {
      CountGeAntitone(xs, v + 1, w);
    } else if w < v {
      CountGeAntitone(xs, w + 1, v);
    }
  }

  /** Number of users skipped before the threshold user: floor(count * 0.05). */
  function TopFanRank(count: nat): (k: nat)
    ensures count > 0 ==> k < count
    ensures 20 * k <= count < 20 * (k + 1)
  {
    count * 5 / 100
  }

  /**
   * The user found after sorting by xp descending and skipping
   * `TopFanRank(count)` users, or nothing when there are no users.
   */
  function FifthPercentileXp(xps: seq<nat>): (r: Option<nat>)
    ensures r.Some? <==> |xps| > 0
    ensures r.Some? ==> IsRankValue(xps, TopFanRank(|xps|), r.value)
  {
    var sorted := SortDesc(xps);
    var k := TopFanRank(|xps|);
    if k < |sorted| then
      SortedValueIsRank(xps, k);
      Some(sorted[k])
    else None
  }

  /**
   * The "Top Fan" threshold: the rank value when there is one, raised to
   * at least 10; 10 for an empty collection.
   */
  function MinXp(xps: seq<nat>): (m: nat)
    ensures m >= MinTopFanXp
    ensures |xps| == 0 ==> m == MinTopFanXp
    ensures forall v :: IsRankValue(xps, TopFanRank(|xps|), v) ==>
              m == if v >= MinTopFanXp then v else MinTopFanXp
  {
    var p := FifthPercentileXp(xps);
    var found := if p.Some? then p.value else MinTopFanXp;
    var m := if found >= MinTopFanXp then found else MinTopFanXp;
    assert forall v :: IsRankValue(xps, TopFanRank(|xps|), v) ==>
             m == if v >= MinTopFanXp then v else MinTopFanXp by {
      forall v | IsRankValue(xps, TopFanRank(|xps|), v)
        ensures m == if v >= MinTopFanXp then v else MinTopFanXp
      {
        CountGeBound(xps, v);
        RankValueUnique(xps, TopFanRank(|xps|), p.value, v);
      }
    }
    m
  }

  /**
   * How far the threshold reaches: no more than floor(count * 0.05) users
   * sit strictly above it, and more than that many users reach it whenever
   * the threshold is above 10 or more than that many users have 10 xp
   * (ties at the boundary all reach it).
   */
  lemma {:induction false} TopFanShare(xps: seq<nat>, minXp: nat)
    requires |xps| > 0 && minXp == MinXp(xps)
    ensures CountGe(xps, minXp + 1) <= TopFanRank(|xps|)
    ensures minXp > MinTopFanXp ==> CountGe(xps, minXp) > TopFanRank(|xps|)
    ensures CountGe(xps, MinTopFanXp) > TopFanRank(|xps|) ==> CountGe(xps, minXp) > TopFanRank(|xps|)
  {
    var v := FifthPercentileXp(xps).value;
    RankShare(xps, TopFanRank(|xps|), v, minXp);
    if v < MinTopFanXp {
      CountGeAntitone(xps, v + 1, MinTopFanXp);
    }
  }

  /** The clamped rank value still bounds the share of users above it. */
  lemma {:induction false} RankShare(xps: seq<nat>, k: nat, v: int, m: int)
    requires IsRankValue(xps, k, v)
    requires m == if v >= MinTopFanXp then v else MinTopFanXp
    ensures CountGe(xps, m + 1) <= k
    ensures m > MinTopFanXp ==> CountGe(xps, m) > k
  {
    if v < MinTopFanXp {
      CountGeAntitone(xps, v + 1, m + 1);
    }
  }
}
